=== FILE: README.md ===
# AI Photo Tour Guide: pipeline and narration player, in Dafny

This project models the two pieces of logic in the photo tour guide client.

- **The landmark pipeline (`App.tsx`).** A submitted photo moves the app from the upload screen
  through three loading stages: identifying the landmark, researching its history, and creating
  the narration. It ends on the result screen or the error screen. Each stage awaits one
  inference call, and each call consumes the previous call's result. The `LandmarkInfo` record is
  built only when all three calls have succeeded. A thrown value becomes the message
  "Failed to process image. …". Starting over clears everything.
- **The narration engine (`hooks/useAudioPlayer.ts`).** The decoded binary string becomes bytes.
  The bytes become signed 16-bit little-endian samples, which are normalised by 1/32768 and
  de-interleaved into channels. A small state machine tracks the `isPlaying` flag, the audio
  context, the buffer and the current source node. It covers `play`, `pause`, the source's
  `onended` handler and the effect's cleanup.

Modules, one per source file:

- `Wrappers`: `Option` and `Result`.
- `Types`: the records of `types.ts`.
- `Gateway`: the visible contracts of the three calls in `services/geminiService.ts`, as outcomes
  `Ok(value)` or `Err(thrown)`.
- `Pipeline`: `App.tsx`.
- `Pcm`: `decode` and `decodeAudioData`.
- `Player`: the `useAudioPlayer` hook.

Both state machines are pure step functions over events. The pipeline keeps, beside the
component's four state variables, the image handler suspended at its current `await` (`run`). A
`Services` value gives the three calls as functions from argument to outcome. `HandleImageSelect`
runs the handler to completion and returns the states it passes through. Web Audio objects are
abstract handles taken from a counter. The player also records which contexts are open, so that
leaks can be stated.

Four behaviours of the code that a reader might not expect:

- **Odd byte length.** `new Int16Array(data.buffer)` throws a RangeError when the byte length is
  odd. The model fails with `OddByteLength`; it does not drop the trailing byte.
- **Empty audio.** `createBuffer` rejects zero frames with a NotSupportedError, so empty audio is
  an error (`UnsupportedShape`), not an empty buffer. The hook does not catch either error, so
  the buffer ref keeps its previous value.
- **Empty landmark name.** Nothing checks that the landmark name is non-empty, and the model does
  not assume it.
- **Result guard.** The result screen tests JavaScript truthiness of the image URL. The model's
  `Submit` accepts any string, so `Submit("")` reaches the guard's failing branch. A real data URL
  from `readAsDataURL` starts with `data:` and is never empty, so after a successful run of the
  program the guard passes (`Pipeline.DataUrlResultRenders`). In the program the guard fires only
  for a run that ends after a reset has cleared the image URL, which needs the overlapping runs
  listed under "Left out".

## Model

| member | source | states |
|---|---|---|
| Gateway.Trim | services/geminiService.ts:31 | the trimmed name is no longer than the reply and neither starts nor ends with ECMAScript whitespace |
| Gateway.TrimIsSlice | services/geminiService.ts:31 | the trimmed name is a contiguous slice of the reply, and everything cut before and after it is ECMAScript whitespace |
| Gateway.TrimStart | services/geminiService.ts:31 | the result is the suffix after the longest whitespace prefix and does not start with whitespace |
| Gateway.TrimEnd | services/geminiService.ts:31 | the result is the prefix before the longest whitespace suffix and does not end with whitespace |
| Gateway.TrimRemovesPadding | services/geminiService.ts:31 | trimming whitespace padding around a trimmed text returns exactly that text |
| Gateway.TrimIdempotent | services/geminiService.ts:31 | trimming twice is the same as trimming once |
| Gateway.LandmarkNameFromReply | services/geminiService.ts:20-32 | the vision call resolves to the trimmed reply, a name no longer than the reply with no whitespace at either end; it need not be non-empty |
| Gateway.HistoryFromReply | services/geminiService.ts:43-46 | the history is the reply text; the sources are the grounding chunks, or none when the metadata is missing |
| Gateway.NarrationFromReply | services/geminiService.ts:63-67 | the speech call succeeds exactly when the audio data is present and non-empty, and then returns it; otherwise it throws the fixed "Failed to generate audio" error |
| Pipeline.IndexOf | App.tsx:30 | the first position of the character, or the length when it is absent; no earlier position holds it |
| Pipeline.ImagePayload | App.tsx:29-30 | the payload is absent exactly when the data URL has no comma; otherwise it is the comma-free text after the first comma, ending at the next comma or the end |
| Pipeline.ImagePayloadOfDataUrl | App.tsx:29-30 | for `header,payload` or `header,payload,more` with comma-free header and payload, the payload sent to the vision call is exactly `payload` |
| Pipeline.PayloadAfterFirstComma | App.tsx:30 | after a comma-free header and a comma, the payload is the rest of the URL up to its next comma |
| Pipeline.FailureMessage | App.tsx:47-48 | the message starts with "Failed to process image. " and continues with the error's message, or with "An unknown error occurred." for a thrown non-Error |
| Pipeline.ResetState | App.tsx:16-21 | starting over gives the upload screen with no error, image URL or record |
| Pipeline.ResetRestoresInitial | App.tsx:16-21 | from a result or error screen that satisfies the per-screen invariant, starting over yields exactly the initial state |
| Pipeline.IdleOnlySubmit | App.tsx:57-58 | on the upload screen every event except a submission leaves the state unchanged; a submission moves to Analyzing with the image URL set and no error or record, so every run starts without a record |
| Pipeline.LoadingMovesForward | App.tsx:33-43 | from a loading stage the only moves are to the next stage, on that stage's success, or to the error screen, exactly on a failure; no stage is skipped or repeated |
| Pipeline.RecordBuiltOnlyFromNarration | App.tsx:42-43 | the record appears only when the narration call resolves; it holds the landmark name, the history and sources, and the audio, and the screen becomes the result screen |
| Pipeline.FailureShowsError | App.tsx:45-50 | a failure in any loading stage ends on the error screen with the failure message and no record |
| Pipeline.Render | App.tsx:55-88 | the upload screen renders the uploader; a result screen with a truthy image URL and a record renders the result view of exactly those two; otherwise a result screen renders nothing and switches to the error screen with the fixed message; the error screen shows its error; each loading screen renders its own stage label, never "Starting..."; no other render changes the state |
| Pipeline.ResultGuardOnReachable | App.tsx:59-65 | on a result screen that satisfies the per-screen invariant, which every reachable one does, the display guard fires exactly when the image URL is the empty string |
| Pipeline.DataUrlResultRenders | App.tsx:25-65 | for an image URL that starts with "data:", as the file reader produces, a successful run's result screen renders the result view of that URL and the record, and the guard does not fire |
| Pipeline.StageLabel | App.tsx:80-86 | no loading stage gets the default "Starting..." label |
| Pipeline.StageLabelsDistinct | App.tsx:80-86 | the three loading stages have pairwise different labels |
| Pipeline.StepPreservesInv | App.tsx:11-53 | every transition keeps the per-screen invariant that the initial state satisfies: each screen carries exactly the data it is entitled to, and a record exists only on the result or error screen |
| Pipeline.RenderPreservesInv | App.tsx:59-65 | the render-time switch to the error screen keeps that per-screen invariant |
| Pipeline.VisionSettles | App.tsx:34-49 | when the vision call resolves, the handler awaits the history of the returned name in FetchingHistory; when it throws, the error screen shows the failure message and the run ends |
| Pipeline.HistorySettles | App.tsx:37-49 | when the history call resolves, the handler awaits the narration of the returned text in GeneratingAudio, keeping the name and the sources; when it throws, the run ends on the error screen |
| Pipeline.NarrationSettles | App.tsx:40-49 | when the speech call resolves, the record holds the name, history, sources and audio and the result screen is shown; when it throws, the run ends on the error screen |
| Pipeline.Step | App.tsx:16-50 | carries no ensures: the transition function of the upload screen, the three awaits, the catch and the reset. Its contract is stated by IdleOnlySubmit, LoadingMovesForward, RecordBuiltOnlyFromNarration, FailureShowsError, ResetRestoresInitial and StepPreservesInv |
| Pipeline.HandleImageSelect | App.tsx:23-53 | carries no ensures: one submission run to completion against given services. Its contract is stated by SuccessfulRun, VisionFailureRun, HistoryFailureRun, NarrationFailureRun, GatewayRun and GatewayRecord |
| Pipeline.GatewayRun | App.tsx:33-50 | with the calls of services/geminiService.ts over any replies, the run always reaches the speech call; it ends on the result screen exactly when the speech reply's audio is present and non-empty, with the record of the trimmed name, the history text, the grounding sources and that audio; otherwise it ends on the error screen with the no-audio message and no record |
| Pipeline.GatewayRecord | App.tsx:42-43 | with the calls of services/geminiService.ts, every record on the result screen has non-empty audio and the trimmed vision reply as its name |
| Pipeline.SuccessfulRun | App.tsx:33-43 | when all three calls succeed, the stages are Analyzing, FetchingHistory, GeneratingAudio, then the result screen; the calls receive the image payload, then the name, then the history text; the final record holds the three results, and no earlier state has one |
| Pipeline.VisionFailureRun | App.tsx:32-50 | a throwing vision call gives the stages Analyzing, then the error screen; only one call is made; the error carries the failure message; there is never a record |
| Pipeline.HistoryFailureRun | App.tsx:32-50 | a throwing history call stops after FetchingHistory; the speech call is never made; the error carries the failure message; there is never a record |
| Pipeline.NarrationFailureRun | App.tsx:32-50 | a throwing speech call stops after GeneratingAudio on the error screen; there is never a record |
| Pcm.Decode | hooks/useAudioPlayer.ts:4-12 | the byte array has the string's length; byte i is the char code of character i, reduced modulo 256 by the Uint8Array store, and equal to it for a binary string |
| Pcm.BinaryStringOfBytes | hooks/useAudioPlayer.ts:4-12 | a binary string survives the trip through its bytes |
| Pcm.BytesOfBinaryString | hooks/useAudioPlayer.ts:4-12 | every byte sequence survives the trip through a binary string |
| Pcm.Int16View | hooks/useAudioPlayer.ts:20 | viewing the bytes as 16-bit samples fails with a RangeError exactly when the byte length is odd; otherwise there is one sample per byte pair |
| Pcm.SampleRoundTrip | hooks/useAudioPlayer.ts:20 | a sample's two little-endian two's complement bytes read back as the same sample |
| Pcm.BytePairRoundTrip | hooks/useAudioPlayer.ts:20 | a byte pair read as a sample encodes back to the same pair |
| Pcm.Int16ViewOfSampleBytes | hooks/useAudioPlayer.ts:20 | the 16-bit view of the encoding of any samples is those samples |
| Pcm.SampleBytesOfInt16View | hooks/useAudioPlayer.ts:20 | encoding the 16-bit view of any even-length bytes gives back those bytes |
| Pcm.Normalise | hooks/useAudioPlayer.ts:27 | the normalised value lies in [-1, 1); it is -1 exactly for -32768; multiplied by 32768 it is the sample again |
| Pcm.QuantiseNormalise | hooks/useAudioPlayer.ts:27 | normalising loses nothing: the sample is recovered exactly |
| Pcm.NormaliseInjective | hooks/useAudioPlayer.ts:27 | different samples normalise to different values |
| Pcm.FrameIndexInRange | hooks/useAudioPlayer.ts:21-27 | the sample read for channel c, frame i lies inside the sample array |
| Pcm.DeInterleave | hooks/useAudioPlayer.ts:21-28 | splitting gives one channel per requested channel, each holding the number of complete frames |
| Pcm.DecodeAudioData | hooks/useAudioPlayer.ts:14-31 | odd byte lengths fail with the RangeError; zero channels or zero frames fail as the buffer creation does, and these are the only failures; otherwise the buffer has the requested rate and numChannels channels of sampleCount/numChannels frames |
| Pcm.DecodedRange | hooks/useAudioPlayer.ts:27 | every decoded value lies in [-1, 1) |
| Pcm.DecodedValue | hooks/useAudioPlayer.ts:21-28 | channel c, frame i holds the normalised little-endian sample i*numChannels + c of the bytes |
| Pcm.ReinterleaveDecoded | hooks/useAudioPlayer.ts:21-28 | re-interleaving the decoded channels gives back every sample of the complete frames, in order |
| Pcm.MonoIsIdentity | hooks/useAudioPlayer.ts:21-28 | with one channel, as the player decodes, the single channel is every sample normalised, in order |
| Pcm.NarrationRoundTrip | hooks/useAudioPlayer.ts:4-31 | samples encoded little-endian and carried as a binary string decode to exactly the normalised samples, in one channel at 24000 Hz |
| Pcm.EmptyAudioRejected | hooks/useAudioPlayer.ts:21-22 | empty audio is rejected by the buffer creation |
| Player.AttachAudio | hooks/useAudioPlayer.ts:39-50 | the effect does nothing for absent audio; it creates a fresh context only when none is held and otherwise keeps the held one and the set of open contexts; it installs the decoded buffer, or keeps the previous buffer when decoding throws; the flag and the source are untouched |
| Player.ReleaseAudio | hooks/useAudioPlayer.ts:53-57 | the cleanup stops the held source, closes and drops the held context, and leaves the flag, the source ref and the buffer ref as they were |
| Player.PlayAudio | hooks/useAudioPlayer.ts:60-77 | carries no ensures: `play`. Its contract is stated by PlayContract, PlayTwiceIsPlayOnce and PauseThenPlayRestarts |
| Player.PauseAudio | hooks/useAudioPlayer.ts:79-84 | carries no ensures: `pause`. Its contract is stated by PauseContract and OnlySourceEndedStopsPlaying |
| Player.SourceEndedAudio | hooks/useAudioPlayer.ts:71-74 | carries no ensures: the source's `onended` handler. Its contract is stated by SourceEndedClears |
| Player.Step | hooks/useAudioPlayer.ts:33-87 | carries no ensures: dispatches each hook event to its operation. Its contract is stated by StepPreservesInv, RunPreservesInv and NoPlaybackAfterRelease |
| Player.ReleaseClosesEverything | hooks/useAudioPlayer.ts:53-57 | after the cleanup no context is open or held, and any held source is stopped |
| Player.ReleaseIdempotent | hooks/useAudioPlayer.ts:53-57 | a second cleanup in a row changes nothing |
| Player.NoPlaybackAfterRelease | hooks/useAudioPlayer.ts:53-61 | after the cleanup, no sequence of events without a new effect run creates a context or a source; every play is a no-op |
| Player.PlayContract | hooks/useAudioPlayer.ts:60-77 | play is a no-op exactly when the buffer or the context is missing or the player is playing; otherwise it resumes the context, starts a never-issued source over the held buffer, and sets the flag |
| Player.PlayTwiceIsPlayOnce | hooks/useAudioPlayer.ts:60-77 | two plays in a row start only one source |
| Player.PauseContract | hooks/useAudioPlayer.ts:79-84 | pause is a no-op without a source; with one it only marks it stopped and never changes the flag |
| Player.OnlySourceEndedStopsPlaying | hooks/useAudioPlayer.ts:71-74 | no event except the source's end clears the flag or the source ref |
| Player.SourceEndedClears | hooks/useAudioPlayer.ts:71-74 | the end of the source clears the flag and the source ref and keeps the context and the buffer |
| Player.PauseThenPlayRestarts | hooks/useAudioPlayer.ts:60-84 | after a pause and the resulting end, play starts a new source over the whole buffer, so no position is kept |
| Player.StepPreservesInv | hooks/useAudioPlayer.ts:33-87 | every event keeps the flag set exactly while a source is held, and keeps at most one context open, the held one |
| Player.RunPreservesInv | hooks/useAudioPlayer.ts:33-87 | any sequence of events keeps that invariant, so contexts never leak |
| Player.OddAudioKeepsBuffer | hooks/useAudioPlayer.ts:44-47 | audio with an odd number of bytes leaves the previous buffer in place |
| Player.AttachDecodesSamples | hooks/useAudioPlayer.ts:44-47 | attaching encoded samples installs the mono 24000 Hz buffer of the normalised samples |

## Left out

- The three inference calls run inside an SDK this model does not include. Each is an arbitrary
  function from its argument to an outcome (`Services`). `GatewayServices` builds them from the
  visible contracts of `services/geminiService.ts` over arbitrary replies. The SDK's own failures,
  the prompts and the model names are not modelled.
- Gateway.LandmarkNameFromReply: takes the reply text as a string. A response without text makes
  `.trim()` throw, and that case is not modelled.
- Gateway.HistoryFromReply: takes the reply text as a string. A response without text parts has
  `response.text` undefined (`services/geminiService.ts:43`). The history call does not dereference
  it, so it resolves with an undefined history, which reaches the speech prompt and the record
  (`App.tsx:37-42`). That case is not modelled.
- Reading the file (`FileReader`) and base64 decoding (`atob`, section 4 of RFC 4648) are browser
  builtins. The player receives the already-decoded binary string; a null or empty base64 text is
  the absent audio.
- Malformed base64 is not modelled. `atob` throws an InvalidCharacterError
  (`hooks/useAudioPlayer.ts:5`, called at `:45`) after the effect has created the context
  (`:42-44`). The effect then rejects with a new context held and the previous buffer kept, as on
  the odd-length path. `Attach` takes an already-decoded string, so it cannot express this.
- Byte order is fixed to little-endian. `new Int16Array(data.buffer)` reads samples in the host's
  byte order; the model assumes a little-endian host.
- The Web Audio API is foreign. Contexts, buffers and sources are abstract handles. The `resume`
  and `close` promises are treated as settling at once. A close error is only logged in the
  source, and it cannot occur here because a context is closed at most once.
- Pcm.DecodeAudioData: checks only the zero-channel and zero-frame limits of `createBuffer`. The
  sample-rate range and the implementation's channel maximum are not checked; the caller always
  passes 24000 Hz and one channel.
- Pcm.DecodeAudioData: counts frames as integers, so the conversion of a fractional frame count
  and frame counts at or above 2^32 are not modelled. Values are `real`s, not rounded to 32-bit
  floats.
- Whether `onended` still fires after the context is closed depends on the browser. The end of a
  source is an event the environment may or may not deliver.
- React timing is not modelled:
  - the race between the asynchronous `initAudio` and `play`;
  - batching of `setState`;
  - stale callback closures;
  - the state update made during render, beyond its logical effect (`Pipeline.Render` returns the
    updated state).
- Events the interface cannot produce leave the pipeline unchanged: a submission counts only on
  the upload screen, and starting over only on the result and error screens. The model starts one
  run per submission, at the moment the file has been read.
- Overlapping runs are not modelled. The handler's work starts in `reader.onloadend`
  (`App.tsx:25-51`), after the asynchronous `readAsDataURL` (`App.tsx:52`), and the uploader stays
  on screen during that read. Two files chosen before the first read finishes start two handlers
  whose state updates interleave. One run's next stage can then pull the other run's error screen
  back to a loading stage, or land after a reset. Nothing cancels an in-flight request. The single
  `Submit` event cannot express any of this.
- Text is Dafny `string`, a sequence of Unicode scalar values, while JavaScript strings are UTF-16
  code units. Lone surrogates cannot be represented, and lengths such as the bound in
  `Gateway.LandmarkNameFromReply` count scalar values, not code units. No modelled behaviour
  depends on this, because every character `trim` removes is a single non-surrogate code unit.
- `console.error` logging and the presentation components are not modelled. That includes the
  citation title fallback, which relies on the browser's URL parser.
- Decoding is deterministic because every decoder member is a pure function; no separate lemma
  states it.

=== FILE: gateway.dfy ===
/** The visible contracts of the three inference calls (services/geminiService.ts).
    The calls themselves are foreign; the pipeline sees only their outcomes. */
module Gateway {
  import opened Wrappers
  import opened Types

  /** A value thrown by a call: an `Error` object with a message, or any other value. */
  datatype Thrown = ErrorObject(message: string) | NonErrorValue

  /** The settled outcome of one awaited call: its resolved value or what it threw. */
  datatype Outcome<+T> = Ok(value: T) | Err(thrown: Thrown)

  /** What the history call resolves to. */
  datatype HistoryData = HistoryData(history: string, sources: seq<GroundingSource>)

  /** The message of the error thrown when the speech response carries no audio. */
  const NoAudioMessage: string := "Failed to generate audio from TTS API."

  /** The characters `String.prototype.trim` removes: ECMAScript WhiteSpace and LineTerminator. */
  predicate IsJsWhitespace(c: char) {
    var u := c as int;
    || u == 0x09 || u == 0x0A || u == 0x0B || u == 0x0C || u == 0x0D
    || u == 0x20 || u == 0xA0 || u == 0x1680
    || (0x2000 <= u <= 0x200A)
    || u == 0x2028 || u == 0x2029 || u == 0x202F || u == 0x205F
    || u == 0x3000 || u == 0xFEFF
  }

  predicate AllWhitespace(s: string) {
    forall k :: 0 <= k < |s| ==> IsJsWhitespace(s[k])
  }

  /** Drops the leading whitespace: the result is the suffix of `s` after the longest whitespace prefix. */
  function TrimStart(s: string): (r: string)
    ensures |r| <= |s| && r == s[|s| - |r|..]
    ensures AllWhitespace(s[..|s| - |r|])
    ensures r == [] || !IsJsWhitespace(r[0])
  {
    if s == [] then []
    else if IsJsWhitespace(s[0]) then TrimStart(s[1..])
    else s
  }

  /** Drops the trailing whitespace: the result is the prefix of `s` before the longest whitespace suffix. */
  function TrimEnd(s: string): (r: string)
    ensures |r| <= |s| && r == s[..|r|]
    ensures AllWhitespace(s[|r|..])
    ensures r == [] || !IsJsWhitespace(r[|r| - 1])
  {
    if s == [] then []
    else if IsJsWhitespace(s[|s| - 1]) then TrimEnd(s[..|s| - 1])
    else s
  }

  /** `String.prototype.trim`, applied to the vision reply to obtain the landmark name. */
  function Trim(s: string): (r: string)
    ensures |r| <= |s|
    ensures r == [] || (!IsJsWhitespace(r[0]) && !IsJsWhitespace(r[|r| - 1]))
  {
    var t := TrimStart(s);
    var r := TrimEnd(t);
    assert r != [] ==> r[0] == t[0];
    r
  }

  /** `r` is the slice of `s` starting at `k`, with only whitespace before and after it. */
  predicate IsPaddedSlice(s: string, k: nat, r: string) {
    k + |r| <= |s| && r == s[k..k + |r|] && AllWhitespace(s[..k]) && AllWhitespace(s[k + |r|..])
  }

  /** The trimmed text is the slice of `s` between a whitespace prefix and a whitespace suffix. */
  lemma TrimIsSlice(s: string)
    ensures IsPaddedSlice(s, |s| - |TrimStart(s)|, Trim(s))
  {
    var t := TrimStart(s);
    assert Trim(s) == TrimEnd(t);
    PaddedSlice(s, t, TrimEnd(t));
  }

  /** A whitespace-free cut of a whitespace-free cut is a slice between whitespace padding. */
  lemma PaddedSlice(s: string, t: string, r: string)
    requires |t| <= |s| && t == s[|s| - |t|..] && AllWhitespace(s[..|s| - |t|])
    requires |r| <= |t| && r == t[..|r|] && AllWhitespace(t[|r|..])
    ensures IsPaddedSlice(s, |s| - |t|, r)
  {
    assert t[|r|..] == s[|s| - |t| + |r|..];
  }

  /** Trimming a string that is already trimmed changes nothing. */
  lemma TrimIdempotent(s: string)
    ensures Trim(Trim(s)) == Trim(s)
  {
    var r := Trim(s);
    TrimRemovesPadding([], r, []);
    assert [] + r + [] == r;
  }

  /** Trimming removes exactly the whitespace padding around a trimmed text. */
  lemma {:induction false} TrimRemovesPadding(lead: string, t: string, trail: string)
    requires AllWhitespace(lead) && AllWhitespace(trail)
    requires t == [] || (!IsJsWhitespace(t[0]) && !IsJsWhitespace(t[|t| - 1]))
    ensures Trim(lead + t + trail) == t
  {
    var s := lead + t + trail;
    assert lead + (t + trail) == s;
    if t == [] {
      assert t + trail == trail;
      TrimStartPadding(lead, trail);
    } else {
      assert (t + trail)[0] == t[0];
      TrimStartPadding(lead, t + trail);
      assert !IsJsWhitespace((t + trail)[0]);
      TrimEndPadding(t, trail);
    }
  }

  lemma {:induction false} TrimStartPadding(lead: string, rest: string)
    requires AllWhitespace(lead)
    requires rest == [] || !IsJsWhitespace(rest[0]) || AllWhitespace(rest)
    ensures TrimStart(lead + rest) == (if AllWhitespace(rest) then [] else rest)
  {
    if lead == [] {
      assert lead + rest == rest;
      if rest != [] && !IsJsWhitespace(rest[0]) {
      } else {
        AllWhitespaceTrimsToEmpty(rest);
      }
    } else {
      assert (lead + rest)[1..] == lead[1..] + rest;
      TrimStartPadding(lead[1..], rest);
    }
  }

  lemma {:induction false} AllWhitespaceTrimsToEmpty(s: string)
    requires AllWhitespace(s)
    ensures TrimStart(s) == []
  {
    if s != [] {
      AllWhitespaceTrimsToEmpty(s[1..]);
    }
  }

  lemma {:induction false} TrimEndPadding(t: string, trail: string)
    requires AllWhitespace(trail)
    requires t == [] || !IsJsWhitespace(t[|t| - 1])
    ensures TrimEnd(t + trail) == t
  {
    if trail == [] {
      assert t + trail == t;
    } else {
      assert (t + trail)[..|t + trail| - 1] == t + trail[..|trail| - 1];
      TrimEndPadding(t, trail[..|trail| - 1]);
    }
  }

  /** The vision call resolves to the trimmed text of the model's reply. */
  function LandmarkNameFromReply(text: string): (r: Outcome<string>)
    ensures r.Ok?
    ensures r.value == [] || (!IsJsWhitespace(r.value[0]) && !IsJsWhitespace(r.value[|r.value| - 1]))
    ensures |r.value| <= |text|
    ensures r.value == Trim(text)
  {
    Ok(Trim(text))
  }

  /** The history call resolves to the reply text and the grounding chunks, or no sources when the
      response carries no grounding metadata. */
  function HistoryFromReply(text: string, chunks: Option<seq<GroundingSource>>): (r: Outcome<HistoryData>)
    ensures r.Ok? && r.value.history == text
    ensures chunks.None? ==> r.value.sources == []
    ensures chunks.Some? ==> r.value.sources == chunks.value
  {
    Ok(HistoryData(text, chunks.GetOr([])))
  }

  /** The speech call resolves to the inline audio data; a missing or empty payload is thrown as an error. */
  function NarrationFromReply(data: Option<string>): (r: Outcome<string>)
    ensures r.Ok? <==> data.Some? && data.value != []
    ensures r.Ok? ==> r.value == data.value
    ensures r.Err? ==> r.thrown == ErrorObject(NoAudioMessage)
  {
    if data.None? || data.value == [] then Err(ErrorObject(NoAudioMessage))
    else Ok(data.value)
  }
}

=== FILE: pcm.dfy ===
/** The narration decoder of hooks/useAudioPlayer.ts: a binary string becomes bytes, the bytes are
    read as signed 16-bit little-endian samples, and each sample is normalised into [-1, 1). */
module Pcm {
  import opened Wrappers

  /** One character of a JavaScript string: a UTF-16 code unit. */
  type CodeUnit = u: int | 0 <= u < 0x1_0000

  /** One element of a `Uint8Array`. */
  type Byte = b: int | 0 <= b < 0x100

  /** One element of an `Int16Array`. */
  type Sample = s: int | -0x8000 <= s < 0x8000

  /** The sample rate the player decodes and plays at. */
  const NarrationSampleRate: int := 24000

  /** Why the bytes cannot be turned into an audio buffer. */
  datatype AudioError =
    | OddByteLength     // the `Int16Array` view throws a RangeError on an odd byte length
    | UnsupportedShape  // `createBuffer` throws a NotSupportedError for zero channels or zero frames

  /** Decoded audio: its sample rate and one sequence of normalised frames per channel. */
  datatype AudioBuffer = AudioBuffer(sampleRate: int, channels: seq<seq<real>>)

  /** A binary string holds one byte per character, as base64 decoding produces. */
  predicate IsBinaryString(binary: seq<CodeUnit>) {
    forall i :: 0 <= i < |binary| ==> binary[i] < 0x100
  }

  /** The bytes a `Uint8Array` holds after storing the char code of every character
      (a store into a `Uint8Array` keeps the code modulo 256). */
  function ToBytes(binary: seq<CodeUnit>): (bytes: seq<Byte>)
    ensures |bytes| == |binary|
  {
    seq(|binary|, i requires 0 <= i < |binary| => binary[i] % 0x100)
  }

  /** The binary string whose char codes are the given bytes (`String.fromCharCode` per byte). */
  function BinaryString(bytes: seq<Byte>): (binary: seq<CodeUnit>)
    ensures |binary| == |bytes| && IsBinaryString(binary)
  {
    seq(|bytes|, i requires 0 <= i < |bytes| => bytes[i] as CodeUnit)
  }

  /** `decode`: copies the char code of every character of the binary string into a fresh byte array.
      This is the imperative form of `ToBytes`, which the player uses; the postcondition ties the two. */
  method Decode(binary: seq<CodeUnit>) returns (bytes: seq<Byte>)
    ensures |bytes| == |binary|
    ensures bytes == ToBytes(binary)
    ensures IsBinaryString(binary) ==> forall i :: 0 <= i < |binary| ==> bytes[i] == binary[i]
  {
    var out := new Byte[|binary|];
    var i := 0;
    while i < |binary|
      invariant 0 <= i <= |binary|
      invariant forall k :: 0 <= k < i ==> out[k] == binary[k] % 0x100
    {
      out[i] := binary[i] % 0x100;
      i := i + 1;
    }
    bytes := out[..];
  }

  /** Reading the bytes back as a binary string gives the string back, when it is a binary string. */
  lemma BinaryStringOfBytes(binary: seq<CodeUnit>)
    requires IsBinaryString(binary)
    ensures BinaryString(ToBytes(binary)) == binary
  {
  }

  /** Every byte sequence survives the trip through a binary string. */
  lemma BytesOfBinaryString(bytes: seq<Byte>)
    ensures ToBytes(BinaryString(bytes)) == bytes
  {
  }

  /** The signed 16-bit value of a little-endian byte pair (two's complement). */
  function Int16At(lo: Byte, hi: Byte): Sample {
    var v := lo + 0x100 * hi;
    if v >= 0x8000 then v - 0x1_0000 else v
  }

  /** The low byte of a sample's two's complement encoding. */
  function LowByte(s: Sample): Byte {
    (s % 0x1_0000) % 0x100
  }

  /** The high byte of a sample's two's complement encoding. */
  function HighByte(s: Sample): Byte {
    (s % 0x1_0000) / 0x100
  }

  /** Encoding a sample as two bytes and reading them back gives the sample. */
  lemma SampleRoundTrip(s: Sample)
    ensures Int16At(LowByte(s), HighByte(s)) == s
  {
  }

  /** Reading two bytes as a sample and encoding it again gives the two bytes. */
  lemma BytePairRoundTrip(lo: Byte, hi: Byte)
    ensures LowByte(Int16At(lo, hi)) == lo && HighByte(Int16At(lo, hi)) == hi
  {
  }

  /** `new Int16Array(data.buffer)` on a little-endian host: one sample per byte pair;
      a byte length that is not a multiple of two is rejected. */
  function Int16View(bytes: seq<Byte>): (r: Result<seq<Sample>, AudioError>)
    ensures r.Failure? <==> |bytes| % 2 == 1
    ensures r.Failure? ==> r.error == OddByteLength
    ensures r.Success? ==> |r.value| * 2 == |bytes|
  {
    if |bytes| % 2 == 1 then Failure(OddByteLength)
    else Success(seq(|bytes| / 2, k requires 0 <= k < |bytes| / 2 => Int16At(bytes[2 * k], bytes[2 * k + 1])))
  }

  /** The little-endian byte encoding of a sequence of samples. */
  function SampleBytes(ss: seq<Sample>): (bytes: seq<Byte>)
    ensures |bytes| == 2 * |ss|
  {
    seq(2 * |ss|, i requires 0 <= i < 2 * |ss| => if i % 2 == 0 then LowByte(ss[i / 2]) else HighByte(ss[i / 2]))
  }

  /** Viewing the encoding of any samples as 16-bit values gives the samples back. */
  lemma Int16ViewOfSampleBytes(ss: seq<Sample>)
    ensures Int16View(SampleBytes(ss)) == Success(ss)
  {
    var bytes := SampleBytes(ss);
    var r := Int16View(bytes);
    assert r.Success?;
    forall k | 0 <= k < |ss|
      ensures r.value[k] == ss[k]
    {
      assert bytes[2 * k] == LowByte(ss[k]);
      assert bytes[2 * k + 1] == HighByte(ss[k]);
      SampleRoundTrip(ss[k]);
    }
    assert r.value == ss;
  }

  /** Encoding the 16-bit view of an even-length byte sequence gives the bytes back. */
  lemma SampleBytesOfInt16View(bytes: seq<Byte>)
    requires |bytes| % 2 == 0
    ensures SampleBytes(Int16View(bytes).value) == bytes
  {
    var ss := Int16View(bytes).value;
    var back := SampleBytes(ss);
    forall i | 0 <= i < |bytes|
      ensures back[i] == bytes[i]
    {
      var k := i / 2;
      BytePairRoundTrip(bytes[2 * k], bytes[2 * k + 1]);
    }
  }

  /** A sample scaled into [-1, 1): divided by 32768. */
  function Normalise(s: Sample): (r: real)
    ensures -1.0 <= r < 1.0
    ensures r == -1.0 <==> s == -0x8000
    ensures r * 32768.0 == s as real
  {
    s as real / 32768.0
  }

  /** The sample a normalised value came from. */
  function Quantise(x: real): int {
    (x * 32768.0).Floor
  }

  /** Normalising loses nothing: the sample is recovered exactly. */
  lemma QuantiseNormalise(s: Sample)
    ensures Quantise(Normalise(s)) == s
  {
  }

  /** Different samples have different normalised values. */
  lemma NormaliseInjective(s: Sample, t: Sample)
    requires Normalise(s) == Normalise(t)
    ensures s == t
  {
    QuantiseNormalise(s);
    QuantiseNormalise(t);
  }

  /** Frame `i` of channel `c` lies inside the interleaved samples. */
  lemma FrameIndexInRange(i: nat, c: nat, n: nat, count: nat)
    requires 0 < n && c < n && i < count / n
    ensures i * n + c < count
  {
    assert (i + 1) * n <= (count / n) * n;
  }

  /** Splits interleaved samples into `n` channels of `|ss| / n` normalised frames:
      channel `c`, frame `i` is sample `i * n + c`. */
  function DeInterleave(ss: seq<Sample>, n: nat): (chans: seq<seq<real>>)
    requires n > 0
    ensures |chans| == n
    ensures forall c :: 0 <= c < n ==> |chans[c]| == |ss| / n
  {
    var frames := |ss| / n;
    seq(n, c requires 0 <= c < n =>
      seq(frames, i requires 0 <= i < frames =>
        FrameIndexInRange(i, c, n, |ss|);
        Normalise(ss[i * n + c])))
  }

  /** `decodeAudioData`: views the bytes as samples, creates a buffer of `numChannels` channels of
      `sampleCount / numChannels` frames each, and stores in channel `c`, frame `i`, the normalised
      sample `i * numChannels + c`. */
  function DecodeAudioData(bytes: seq<Byte>, sampleRate: int, numChannels: nat): (r: Result<AudioBuffer, AudioError>)
    ensures |bytes| % 2 == 1 ==> r == Failure(OddByteLength)
    ensures |bytes| % 2 == 0 ==> (r.Failure? <==> numChannels == 0 || |bytes| / 2 < numChannels)
    ensures r.Failure? && |bytes| % 2 == 0 ==> r.error == UnsupportedShape
    ensures r.Success? ==> r.value.sampleRate == sampleRate && |r.value.channels| == numChannels
    ensures r.Success? ==> forall c :: 0 <= c < numChannels ==> |r.value.channels[c]| == |bytes| / 2 / numChannels
  {
    match Int16View(bytes)
    case Failure(e) => Failure(e)
    case Success(ss) =>
      if numChannels == 0 || |ss| / numChannels == 0 then Failure(UnsupportedShape)
      else Success(AudioBuffer(sampleRate, DeInterleave(ss, numChannels)))
  }

  /** Every decoded value lies in [-1, 1). */
  lemma DecodedRange(bytes: seq<Byte>, sampleRate: int, numChannels: nat, c: nat, i: nat)
    requires DecodeAudioData(bytes, sampleRate, numChannels).Success?
    requires c < numChannels && i < |bytes| / 2 / numChannels
    ensures -1.0 <= DecodeAudioData(bytes, sampleRate, numChannels).value.channels[c][i] < 1.0
  {
    DecodedValue(bytes, sampleRate, numChannels, c, i);
  }

  /** Every decoded value is the normalised little-endian sample read from its byte pair. */
  lemma DecodedValue(bytes: seq<Byte>, sampleRate: int, numChannels: nat, c: nat, i: nat)
    requires DecodeAudioData(bytes, sampleRate, numChannels).Success?
    requires c < numChannels && i < |bytes| / 2 / numChannels
    ensures 2 * (i * numChannels + c) + 1 < |bytes|
    ensures DecodeAudioData(bytes, sampleRate, numChannels).value.channels[c][i]
         == Normalise(Int16At(bytes[2 * (i * numChannels + c)], bytes[2 * (i * numChannels + c) + 1]))
  {
    FrameIndexInRange(i, c, numChannels, |bytes| / 2);
  }

  /** The interleaved samples recovered from decoded channels: frame `k / n` of channel `k % n`. */
  function Reinterleave(channels: seq<seq<real>>, frames: nat): seq<int>
    requires |channels| > 0
    requires forall c :: 0 <= c < |channels| ==> |channels[c]| == frames
  {
    var n := |channels|;
    seq(frames * n, k requires 0 <= k < frames * n =>
      FrameOfIndex(k, n, frames);
      Quantise(channels[k % n][k / n]))
  }

  lemma FrameOfIndex(k: nat, n: nat, frames: nat)
    requires 0 < n && k < frames * n
    ensures k / n < frames && k % n < n
    ensures (k / n) * n + k % n == k
  {
  }

  /** De-interleaving is lossless: re-interleaving the decoded channels gives back every sample of
      the complete frames, in order. */
  lemma ReinterleaveDecoded(bytes: seq<Byte>, sampleRate: int, numChannels: nat)
    requires DecodeAudioData(bytes, sampleRate, numChannels).Success?
    ensures var ss := Int16View(bytes).value;
            var frames := |ss| / numChannels;
            frames * numChannels <= |ss| &&
            Reinterleave(DecodeAudioData(bytes, sampleRate, numChannels).value.channels, frames)
              == ss[..frames * numChannels]
  {
    var ss := Int16View(bytes).value;
    var n := numChannels;
    var frames := |ss| / n;
    var chans := DecodeAudioData(bytes, sampleRate, n).value.channels;
    assert frames * n <= |ss|;
    var back := Reinterleave(chans, frames);
    forall k | 0 <= k < frames * n
      ensures back[k] == ss[k]
    {
      FrameOfIndex(k, n, frames);
      var c, i := k % n, k / n;
      assert back[k] == Quantise(chans[c][i]);
      assert chans[c][i] == Normalise(ss[i * n + c]);
      QuantiseNormalise(ss[k]);
    }
  }

  /** The samples normalised one by one. */
  function NormaliseAll(ss: seq<Sample>): (r: seq<real>)
    ensures |r| == |ss|
  {
    seq(|ss|, i requires 0 <= i < |ss| => Normalise(ss[i]))
  }

  /** With one channel, as the player decodes, the single channel is every sample in order. */
  lemma MonoIsIdentity(bytes: seq<Byte>, sampleRate: int)
    requires |bytes| % 2 == 0 && |bytes| >= 2
    ensures DecodeAudioData(bytes, sampleRate, 1)
         == Success(AudioBuffer(sampleRate, [NormaliseAll(Int16View(bytes).value)]))
  {
    var ss := Int16View(bytes).value;
    var chans := DecodeAudioData(bytes, sampleRate, 1).value.channels;
    assert |chans| == 1;
    assert |ss| / 1 == |ss|;
    assert |chans[0]| == |ss|;
    forall i | 0 <= i < |ss|
      ensures chans[0][i] == NormaliseAll(ss)[i]
    {
      assert i * 1 + 0 == i;
    }
    assert chans[0] == NormaliseAll(ss);
    assert chans == [NormaliseAll(ss)];
  }

  /** End to end: samples encoded little-endian, carried as a binary string, decoded and
      normalised come out as exactly the normalised samples, in order. */
  lemma NarrationRoundTrip(ss: seq<Sample>)
    requires |ss| > 0
    ensures DecodeAudioData(ToBytes(BinaryString(SampleBytes(ss))), NarrationSampleRate, 1)
         == Success(AudioBuffer(NarrationSampleRate, [NormaliseAll(ss)]))
  {
    var bytes := SampleBytes(ss);
    BytesOfBinaryString(bytes);
    Int16ViewOfSampleBytes(ss);
    MonoIsIdentity(bytes, NarrationSampleRate);
  }

  /** Empty audio cannot be decoded: the buffer would have no frames. */
  lemma EmptyAudioRejected(sampleRate: int, numChannels: nat)
    ensures DecodeAudioData([], sampleRate, numChannels) == Failure(UnsupportedShape)
  {
  }
}

=== FILE: pipeline.dfy ===
/** The landmark pipeline of App.tsx: a state machine that sequences the vision, history and
    speech calls, builds the landmark record once all three have succeeded, and turns any failure
    into the error screen. */
module Pipeline {
  import opened Wrappers
  import opened Types
  import opened Gateway

  /** The image handler suspended at an `await`: which call it waits on and the results it holds. */
  datatype Run =
    | NoRun
    | AwaitingVision(payload: Option<string>, mimeType: string)
    | AwaitingHistory(name: string)
    | AwaitingNarration(name: string, history: string, sources: seq<GroundingSource>)

  /** The component's four pieces of state plus the suspended handler. */
  datatype App = App(
    appState: AppState,
    error: Option<string>,
    imageUrl: Option<string>,
    landmarkInfo: Option<LandmarkInfo>,
    run: Run)

  /** One call to the inference gateway, with the argument it is given. */
  datatype Call =
    | AnalyzeImage(payload: Option<string>, mimeType: string)
    | FetchHistory(name: string)
    | GenerateNarration(text: string)

  /** The value an awaited call resolves to. */
  datatype Reply = LandmarkName(name: string) | History(data: HistoryData) | Narration(audio: string)

  /** What can happen to the pipeline: the user submits an image (offered on the upload screen),
      the awaited call resolves or throws, or the user starts over (offered on the result and
      error screens). */
  datatype Event =
    | Submit(dataUrl: string, mimeType: string)
    | StageSucceeded(reply: Reply)
    | StageFailed(thrown: Thrown)
    | Reset

  /** What the component renders. */
  datatype View =
    | Uploader
    | ResultView(imageUrl: string, info: LandmarkInfo)
    | Blank
    | ErrorView(message: Option<string>)
    | Loader(progress: string)

  /** The state on first render. */
  const Initial: App := App(Idle, None, None, None, NoRun)

  const FailurePrefix: string := "Failed to process image. "
  const UnknownErrorText: string := "An unknown error occurred."
  const DisplayFailureMessage: string := "Something went wrong displaying the results."
  const StartingLabel: string := "Starting..."

  /** The position of the first `c` in `s`, or `|s|` when there is none. */
  function IndexOf(s: string, c: char): (i: nat)
    ensures i <= |s| && c !in s[..i]
    ensures i < |s| ==> s[i] == c
    ensures i == |s| <==> c !in s
  {
    if s == [] then 0
    else if s[0] == c then 0
    else 1 + IndexOf(s[1..], c)
  }

  /** `dataUrl.split(',')[1]`: the text between the first comma and the next comma (or the end);
      absent (`undefined`) when the data URL has no comma. */
  function ImagePayload(dataUrl: string): (r: Option<string>)
    ensures r.None? <==> ',' !in dataUrl
    ensures r.Some? ==>
              var i := IndexOf(dataUrl, ',');
              var j := i + 1 + |r.value|;
              && j <= |dataUrl|
              && dataUrl[i + 1..j] == r.value
              && ',' !in r.value
              && (j == |dataUrl| || dataUrl[j] == ',')
  {
    var i := IndexOf(dataUrl, ',');
    if i == |dataUrl| then None
    else
      var rest := dataUrl[i + 1..];
      var j := IndexOf(rest, ',');
      assert rest[..j] == dataUrl[i + 1..i + 1 + j];
      Some(rest[..j])
  }

  /** A data URL `header,payload` or `header,payload,more` yields exactly `payload` when neither
      the header nor the payload holds a comma. */
  lemma ImagePayloadOfDataUrl(header: string, payload: string, more: Option<string>)
    requires ',' !in header && ',' !in payload
    ensures var url := header + "," + payload + (if more.Some? then "," + more.value else "");
            ImagePayload(url) == Some(payload)
  {
    var suffix := if more.Some? then "," + more.value else "";
    var tail := payload + suffix;
    assert header + "," + payload + suffix == header + [','] + tail;
    PayloadAfterFirstComma(header, tail);
    IndexOfAfterPrefix(payload, suffix, ',');
    assert tail[..|payload|] == payload;
  }

  /** After a comma-free header and a comma, the payload is the rest up to its first comma. */
  lemma PayloadAfterFirstComma(header: string, rest: string)
    requires ',' !in header
    ensures ImagePayload(header + [','] + rest) == Some(rest[..IndexOf(rest, ',')])
  {
    var url := header + [','] + rest;
    assert url == header + ([','] + rest);
    IndexOfAfterPrefix(header, [','] + rest, ',');
    assert url[|header| + 1..] == rest;
  }

  /** Searching past a prefix free of `c` adds the prefix's length. */
  lemma {:induction false} IndexOfAfterPrefix(prefix: string, rest: string, c: char)
    requires c !in prefix
    ensures IndexOf(prefix + rest, c) == |prefix| + IndexOf(rest, c)
  {
    if prefix != [] {
      assert (prefix + rest)[1..] == prefix[1..] + rest;
      IndexOfAfterPrefix(prefix[1..], rest, c);
    } else {
      assert prefix + rest == rest;
    }
  }

  /** The message shown after a failed run: the error's message, or a fixed text for a thrown
      value that is not an `Error`. */
  function FailureMessage(thrown: Thrown): (m: string)
    ensures |FailurePrefix| <= |m| && m[..|FailurePrefix|] == FailurePrefix
    ensures thrown.ErrorObject? ==> m[|FailurePrefix|..] == thrown.message
    ensures thrown.NonErrorValue? ==> m[|FailurePrefix|..] == UnknownErrorText
  {
    var detail := match thrown
      case ErrorObject(message) => message
      case NonErrorValue => UnknownErrorText;
    FailurePrefix + detail
  }

  /** `resetState`: back to the upload screen with no error, image or record. */
  function ResetState(app: App): (r: App)
    ensures r.appState == Idle && r.error.None? && r.imageUrl.None? && r.landmarkInfo.None?
    ensures r.run == app.run
  {
    app.(appState := Idle, error := None, imageUrl := None, landmarkInfo := None)
  }

  /** One transition. An event the current screen cannot produce leaves the state unchanged. */
  function Step(app: App, e: Event): App {
    match e
    case Submit(dataUrl, mimeType) =>
      if app.appState.Idle? then
        app.(imageUrl := Some(dataUrl), appState := Analyzing,
             run := AwaitingVision(ImagePayload(dataUrl), mimeType))
      else app
    case StageSucceeded(reply) =>
      (match (app.run, reply)
      case (AwaitingVision(_, _), LandmarkName(name)) =>
        app.(appState := FetchingHistory, run := AwaitingHistory(name))
      case (AwaitingHistory(name), History(data)) =>
        app.(appState := GeneratingAudio, run := AwaitingNarration(name, data.history, data.sources))
      case (AwaitingNarration(name, history, sources), Narration(audio)) =>
        app.(landmarkInfo := Some(LandmarkInfo(name, history, sources, audio)),
             appState := ResultShown, run := NoRun)
      case _ => app)
    case StageFailed(thrown) =>
      if app.run.NoRun? then app
      else app.(error := Some(FailureMessage(thrown)), appState := ErrorShown, run := NoRun)
    case Reset =>
      if app.appState.ResultShown? || app.appState.ErrorShown? then ResetState(app) else app
  }

  /** The call the suspended handler waits on, if any. */
  function PendingCall(app: App): Option<Call> {
    match app.run
    case NoRun => None
    case AwaitingVision(payload, mimeType) => Some(AnalyzeImage(payload, mimeType))
    case AwaitingHistory(name) => Some(FetchHistory(name))
    case AwaitingNarration(_, history, _) => Some(GenerateNarration(history))
  }

  /** The progress label of a loading screen; "Starting..." when no stage matches. */
  function StageLabel(s: AppState): (text: string)
    ensures s.IsLoading() ==> text != StartingLabel
  {
    if s.Analyzing? then "Identifying landmark..."
    else if s.FetchingHistory? then "Researching history..."
    else if s.GeneratingAudio? then "Creating narration..."
    else StartingLabel
  }

  /** JavaScript truthiness of a nullable string: present and non-empty. */
  predicate Truthy(s: Option<string>) {
    s.Some? && s.value != []
  }

  /** `renderContent`: the view for the current screen; a result screen without both an image URL
      and a record renders nothing and switches to the error screen with a fixed message. */
  function Render(app: App): (r: (View, App))
    ensures app.appState.ResultShown? ==>
              (r.0.Blank? <==> !(Truthy(app.imageUrl) && app.landmarkInfo.Some?))
    ensures r.0.Blank? ==>
              r.1 == app.(error := Some(DisplayFailureMessage), appState := ErrorShown)
    ensures !r.0.Blank? ==> r.1 == app
    ensures app.appState.Idle? ==> r.0 == Uploader
    ensures app.appState.ResultShown? && Truthy(app.imageUrl) && app.landmarkInfo.Some? ==>
              r.0 == ResultView(app.imageUrl.value, app.landmarkInfo.value)
    ensures app.appState.ErrorShown? ==> r.0 == ErrorView(app.error)
    ensures app.appState.IsLoading() ==> r.0 == Loader(StageLabel(app.appState))
  {
    match app.appState
    case Idle => (Uploader, app)
    case ResultShown =>
      if Truthy(app.imageUrl) && app.landmarkInfo.Some? then
        (ResultView(app.imageUrl.value, app.landmarkInfo.value), app)
      else
        (Blank, app.(error := Some(DisplayFailureMessage), appState := ErrorShown))
    case ErrorShown => (ErrorView(app.error), app)
    case _ => (Loader(StageLabel(app.appState)), app)
  }

  /** The per-screen invariant that `Initial` satisfies: each screen carries exactly the data it is
      entitled to. It holds of every reachable state, and of some unreachable ones too. */
  ghost predicate Inv(app: App) {
    match app.appState
    case Idle =>
      app.error.None? && app.imageUrl.None? && app.landmarkInfo.None? && app.run.NoRun?
    case Analyzing =>
      && app.error.None? && app.imageUrl.Some? && app.landmarkInfo.None?
      && app.run.AwaitingVision? && app.run.payload == ImagePayload(app.imageUrl.value)
    case FetchingHistory =>
      app.error.None? && app.imageUrl.Some? && app.landmarkInfo.None? && app.run.AwaitingHistory?
    case GeneratingAudio =>
      app.error.None? && app.imageUrl.Some? && app.landmarkInfo.None? && app.run.AwaitingNarration?
    case ResultShown =>
      app.error.None? && app.imageUrl.Some? && app.landmarkInfo.Some? && app.run.NoRun?
    case ErrorShown =>
      app.error.Some? && app.run.NoRun?
  }

  lemma InitialInv()
    ensures Inv(Initial)
  {
  }

  /** Every transition keeps the per-screen invariant. */
  lemma StepPreservesInv(app: App, e: Event)
    requires Inv(app)
    ensures Inv(Step(app, e))
  {
  }

  /** Rendering keeps the per-screen invariant. */
  lemma RenderPreservesInv(app: App)
    requires Inv(app)
    ensures Inv(Render(app).1)
  {
  }

  /** The stage that follows each loading stage on success. */
  function NextStage(s: AppState): AppState {
    match s
    case Analyzing => FetchingHistory
    case FetchingHistory => GeneratingAudio
    case GeneratingAudio => ResultShown
    case _ => s
  }

  /** From the upload screen only a submission moves the pipeline, and it moves it to Analyzing
      with no error and no record. */
  lemma IdleOnlySubmit(app: App, e: Event)
    requires Inv(app) && app.appState.Idle?
    ensures !e.Submit? ==> Step(app, e) == app
    ensures e.Submit? ==>
              (&& Step(app, e).appState == Analyzing
               && Step(app, e).error.None? && Step(app, e).landmarkInfo.None?
               && Step(app, e).imageUrl == Some(e.dataUrl))
  {
  }

  /** From a loading stage the only moves are to the next stage or to the error screen:
      no stage is skipped or repeated. */
  lemma LoadingMovesForward(app: App, e: Event)
    requires Inv(app) && app.appState.IsLoading()
    ensures var s := Step(app, e).appState;
            s == app.appState || s == NextStage(app.appState) || s == ErrorShown
    ensures Step(app, e).appState == NextStage(app.appState) <==> e.StageSucceeded? && Step(app, e) != app
    ensures Step(app, e).appState == ErrorShown <==> e.StageFailed?
  {
  }

  /** The record appears only when the narration resolves, and holds the handler's three results. */
  lemma RecordBuiltOnlyFromNarration(app: App, e: Event)
    requires Inv(app) && app.landmarkInfo.None? && Step(app, e).landmarkInfo.Some?
    ensures app.run.AwaitingNarration? && e.StageSucceeded? && e.reply.Narration?
    ensures Step(app, e).landmarkInfo.value
         == LandmarkInfo(app.run.name, app.run.history, app.run.sources, e.reply.audio)
    ensures Step(app, e).appState == ResultShown
  {
  }

  /** A failure in any stage ends on the error screen with the failure message and no record. */
  lemma FailureShowsError(app: App, thrown: Thrown)
    requires Inv(app) && app.appState.IsLoading()
    ensures Step(app, StageFailed(thrown)).appState == ErrorShown
    ensures Step(app, StageFailed(thrown)).error == Some(FailureMessage(thrown))
    ensures Step(app, StageFailed(thrown)).landmarkInfo.None?
  {
  }

  /** Starting over from the result or error screen yields the initial state. */
  lemma ResetRestoresInitial(app: App)
    requires Inv(app) && (app.appState.ResultShown? || app.appState.ErrorShown?)
    ensures Step(app, Reset) == Initial
  {
  }

  /** On a result screen satisfying the invariant the display guard fires exactly when the image
      URL is empty. `Submit` accepts any string, so `Submit("")` reaches that case; a real data URL
      is never empty (see `DataUrlResultRenders`), and in the program the guard fires only for a run
      that ends after a reset, which overlapping runs would need. */
  lemma ResultGuardOnReachable(app: App)
    requires Inv(app) && app.appState.ResultShown?
    ensures Render(app).0.Blank? <==> app.imageUrl == Some("")
  {
  }

  /** A data URL as `readAsDataURL` produces it starts with "data:". When such a run succeeds, its
      result screen renders the result view of that URL and the record, never the guard's blank. */
  lemma DataUrlResultRenders(app: App, dataUrl: string, mimeType: string, svc: Services,
                             name: string, data: HistoryData, audio: string)
    requires Inv(app) && app.appState.Idle?
    requires |dataUrl| >= 5 && dataUrl[..5] == "data:"
    requires svc.analyzeImage(ImagePayload(dataUrl), mimeType) == Ok(name)
    requires svc.fetchHistory(name) == Ok(data)
    requires svc.generateNarration(data.history) == Ok(audio)
    ensures var trace := HandleImageSelect(app, dataUrl, mimeType, svc);
            && |trace| == 4
            && Render(trace[3]).0 == ResultView(dataUrl, LandmarkInfo(name, data.history, data.sources, audio))
            && Render(trace[3]).1 == trace[3]
  {
    SuccessTrace(app, dataUrl, mimeType, svc, name, data, audio);
  }

  /** The three loading stages have three different labels, none of them the default. */
  lemma StageLabelsDistinct(s: AppState, t: AppState)
    requires s.IsLoading() && t.IsLoading() && s != t
    ensures StageLabel(s) != StageLabel(t)
    ensures StageLabel(s) != StartingLabel
  {
  }

  /** The three inference calls, as functions from their arguments to their outcomes. */
  datatype Services = Services(
    analyzeImage: (Option<string>, string) -> Outcome<string>,
    fetchHistory: string -> Outcome<HistoryData>,
    generateNarration: string -> Outcome<string>)

  /** The event produced when `call` settles. */
  function Settle(svc: Services, call: Call): Event {
    match call
    case AnalyzeImage(payload, mimeType) =>
      (match svc.analyzeImage(payload, mimeType)
       case Ok(name) => StageSucceeded(LandmarkName(name))
       case Err(thrown) => StageFailed(thrown))
    case FetchHistory(name) =>
      (match svc.fetchHistory(name)
       case Ok(data) => StageSucceeded(History(data))
       case Err(thrown) => StageFailed(thrown))
    case GenerateNarration(text) =>
      (match svc.generateNarration(text)
       case Ok(audio) => StageSucceeded(Narration(audio))
       case Err(thrown) => StageFailed(thrown))
  }

  /** How many awaits the suspended handler still has ahead of it. */
  function AwaitsLeft(run: Run): nat {
    match run
    case NoRun => 0
    case AwaitingNarration(_, _, _) => 1
    case AwaitingHistory(_) => 2
    case AwaitingVision(_, _) => 3
  }

  /** Resumes the suspended handler until it finishes: the states it passes through. */
  function Resume(app: App, svc: Services): seq<App>
    decreases AwaitsLeft(app.run)
  {
    match PendingCall(app)
    case None => []
    case Some(call) =>
      var next := Step(app, Settle(svc, call));
      [next] + Resume(next, svc)
  }

  /** `handleImageSelect`: the states the pipeline passes through for one submitted image. */
  function HandleImageSelect(app: App, dataUrl: string, mimeType: string, svc: Services): seq<App> {
    var first := Step(app, Submit(dataUrl, mimeType));
    [first] + Resume(first, svc)
  }

  /** The screens of a sequence of states. */
  function Stages(trace: seq<App>): seq<AppState> {
    seq(|trace|, i requires 0 <= i < |trace| => trace[i].appState)
  }

  /** The call a state waits on, as a sequence of at most one call. */
  function CallOf(app: App): seq<Call> {
    match PendingCall(app)
    case Some(call) => [call]
    case None => []
  }

  /** The calls a sequence of states waits on, in order. */
  function CallsIssued(trace: seq<App>): seq<Call> {
    if trace == [] then [] else CallOf(trace[0]) + CallsIssued(trace[1..])
  }

  /** One resumption: the handler settles its pending call and continues from the resulting state. */
  lemma ResumeTo(app: App, svc: Services, next: App)
    requires PendingCall(app).Some? && Step(app, Settle(svc, PendingCall(app).value)) == next
    ensures Resume(app, svc) == [next] + Resume(next, svc)
  {
  }

  /** The vision call settles: on success the handler awaits the history of the returned name;
      on a throw the error screen shows the failure message. */
  lemma VisionSettles(app: App, svc: Services)
    requires app.run.AwaitingVision?
    ensures var next := Step(app, Settle(svc, PendingCall(app).value));
            match svc.analyzeImage(app.run.payload, app.run.mimeType)
            case Ok(name) => next == app.(appState := FetchingHistory, run := AwaitingHistory(name))
            case Err(thrown) => next == app.(error := Some(FailureMessage(thrown)), appState := ErrorShown, run := NoRun)
  {
  }

  /** The history call settles: on success the handler awaits the narration of the returned text;
      on a throw the error screen shows the failure message. */
  lemma HistorySettles(app: App, svc: Services)
    requires app.run.AwaitingHistory?
    ensures var next := Step(app, Settle(svc, PendingCall(app).value));
            match svc.fetchHistory(app.run.name)
            case Ok(data) =>
              next == app.(appState := GeneratingAudio, run := AwaitingNarration(app.run.name, data.history, data.sources))
            case Err(thrown) => next == app.(error := Some(FailureMessage(thrown)), appState := ErrorShown, run := NoRun)
  {
  }

  /** The speech call settles: on success the record is built from the three results; on a throw
      the error screen shows the failure message. */
  lemma NarrationSettles(app: App, svc: Services)
    requires app.run.AwaitingNarration?
    ensures var next := Step(app, Settle(svc, PendingCall(app).value));
            match svc.generateNarration(app.run.history)
            case Ok(audio) =>
              next == app.(landmarkInfo := Some(LandmarkInfo(app.run.name, app.run.history, app.run.sources, audio)),
                           appState := ResultShown, run := NoRun)
            case Err(thrown) => next == app.(error := Some(FailureMessage(thrown)), appState := ErrorShown, run := NoRun)
  {
  }

  lemma CallsIssuedCons(first: App, rest: seq<App>)
    ensures CallsIssued([first] + rest) == CallOf(first) + CallsIssued(rest)
  {
    assert ([first] + rest)[1..] == rest;
  }

  /** The screens and calls of a four-state trace. */
  lemma Trace4(a1: App, a2: App, a3: App, a4: App)
    ensures Stages([a1, a2, a3, a4]) == [a1.appState, a2.appState, a3.appState, a4.appState]
    ensures CallsIssued([a1, a2, a3, a4]) == CallOf(a1) + CallOf(a2) + CallOf(a3) + CallOf(a4)
  {
    CallsIssuedCons(a4, []);
    assert [a4] + [] == [a4];
    CallsIssuedCons(a3, [a4]);
    assert [a3] + [a4] == [a3, a4];
    CallsIssuedCons(a2, [a3, a4]);
    assert [a2] + [a3, a4] == [a2, a3, a4];
    CallsIssuedCons(a1, [a2, a3, a4]);
    assert [a1] + [a2, a3, a4] == [a1, a2, a3, a4];
  }

  /** The screens and calls of a three-state trace. */
  lemma Trace3(a1: App, a2: App, a3: App)
    ensures Stages([a1, a2, a3]) == [a1.appState, a2.appState, a3.appState]
    ensures CallsIssued([a1, a2, a3]) == CallOf(a1) + CallOf(a2) + CallOf(a3)
  {
    CallsIssuedCons(a3, []);
    assert [a3] + [] == [a3];
    CallsIssuedCons(a2, [a3]);
    assert [a2] + [a3] == [a2, a3];
    CallsIssuedCons(a1, [a2, a3]);
    assert [a1] + [a2, a3] == [a1, a2, a3];
  }

  /** The screens and calls of a two-state trace. */
  lemma Trace2(a1: App, a2: App)
    ensures Stages([a1, a2]) == [a1.appState, a2.appState]
    ensures CallsIssued([a1, a2]) == CallOf(a1) + CallOf(a2)
  {
    CallsIssuedCons(a2, []);
    assert [a2] + [] == [a2];
    CallsIssuedCons(a1, [a2]);
    assert [a1] + [a2] == [a1, a2];
  }

  /** The states of a run whose three calls succeed. */
  lemma SuccessTrace(app: App, dataUrl: string, mimeType: string, svc: Services,
                     name: string, data: HistoryData, audio: string)
    requires Inv(app) && app.appState.Idle?
    requires svc.analyzeImage(ImagePayload(dataUrl), mimeType) == Ok(name)
    requires svc.fetchHistory(name) == Ok(data)
    requires svc.generateNarration(data.history) == Ok(audio)
    ensures var a1 := App(Analyzing, None, Some(dataUrl), None, AwaitingVision(ImagePayload(dataUrl), mimeType));
            var a2 := a1.(appState := FetchingHistory, run := AwaitingHistory(name));
            var a3 := a2.(appState := GeneratingAudio, run := AwaitingNarration(name, data.history, data.sources));
            var a4 := a3.(appState := ResultShown, run := NoRun,
                          landmarkInfo := Some(LandmarkInfo(name, data.history, data.sources, audio)));
            HandleImageSelect(app, dataUrl, mimeType, svc) == [a1, a2, a3, a4]
  {
    var a1 := App(Analyzing, None, Some(dataUrl), None, AwaitingVision(ImagePayload(dataUrl), mimeType));
    var a2 := a1.(appState := FetchingHistory, run := AwaitingHistory(name));
    var a3 := a2.(appState := GeneratingAudio, run := AwaitingNarration(name, data.history, data.sources));
    var a4 := a3.(appState := ResultShown, run := NoRun,
                  landmarkInfo := Some(LandmarkInfo(name, data.history, data.sources, audio)));
    assert Step(app, Submit(dataUrl, mimeType)) == a1;
    VisionSettles(a1, svc);
    ResumeTo(a1, svc, a2);
    HistorySettles(a2, svc);
    ResumeTo(a2, svc, a3);
    NarrationSettles(a3, svc);
    ResumeTo(a3, svc, a4);
    assert Resume(a4, svc) == [];
  }

  /** A run whose three calls succeed passes through the three loading stages and the result screen
      in order; each call receives the previous call's result; the record holds the three results
      and appears only on the result screen. */
  lemma SuccessfulRun(app: App, dataUrl: string, mimeType: string, svc: Services,
                      name: string, data: HistoryData, audio: string)
    requires Inv(app) && app.appState.Idle?
    requires svc.analyzeImage(ImagePayload(dataUrl), mimeType) == Ok(name)
    requires svc.fetchHistory(name) == Ok(data)
    requires svc.generateNarration(data.history) == Ok(audio)
    ensures var trace := HandleImageSelect(app, dataUrl, mimeType, svc);
            && Stages(trace) == [Analyzing, FetchingHistory, GeneratingAudio, ResultShown]
            && CallsIssued(trace)
               == [AnalyzeImage(ImagePayload(dataUrl), mimeType), FetchHistory(name), GenerateNarration(data.history)]
            && trace[3].landmarkInfo == Some(LandmarkInfo(name, data.history, data.sources, audio))
            && trace[3].imageUrl == Some(dataUrl) && trace[3].error.None?
            && (forall k :: 0 <= k < 3 ==> trace[k].landmarkInfo.None?)
  {
    SuccessTrace(app, dataUrl, mimeType, svc, name, data, audio);
    var trace := HandleImageSelect(app, dataUrl, mimeType, svc);
    Trace4(trace[0], trace[1], trace[2], trace[3]);
  }

  /** A run whose vision call throws goes straight from Analyzing to the error screen. */
  lemma VisionFailureRun(app: App, dataUrl: string, mimeType: string, svc: Services, thrown: Thrown)
    requires Inv(app) && app.appState.Idle?
    requires svc.analyzeImage(ImagePayload(dataUrl), mimeType) == Err(thrown)
    ensures var trace := HandleImageSelect(app, dataUrl, mimeType, svc);
            && Stages(trace) == [Analyzing, ErrorShown]
            && CallsIssued(trace) == [AnalyzeImage(ImagePayload(dataUrl), mimeType)]
            && trace[1].error == Some(FailureMessage(thrown))
            && (forall k :: 0 <= k < 2 ==> trace[k].landmarkInfo.None?)
  {
    var a1 := App(Analyzing, None, Some(dataUrl), None, AwaitingVision(ImagePayload(dataUrl), mimeType));
    var a2 := a1.(error := Some(FailureMessage(thrown)), appState := ErrorShown, run := NoRun);
    assert Step(app, Submit(dataUrl, mimeType)) == a1;
    VisionSettles(a1, svc);
    ResumeTo(a1, svc, a2);
    assert Resume(a2, svc) == [];
    assert HandleImageSelect(app, dataUrl, mimeType, svc) == [a1, a2];
    Trace2(a1, a2);
  }

  /** The states of a run whose history call throws. */
  lemma HistoryFailureTrace(app: App, dataUrl: string, mimeType: string, svc: Services,
                            name: string, thrown: Thrown)
    requires Inv(app) && app.appState.Idle?
    requires svc.analyzeImage(ImagePayload(dataUrl), mimeType) == Ok(name)
    requires svc.fetchHistory(name) == Err(thrown)
    ensures var a1 := App(Analyzing, None, Some(dataUrl), None, AwaitingVision(ImagePayload(dataUrl), mimeType));
            var a2 := a1.(appState := FetchingHistory, run := AwaitingHistory(name));
            var a3 := a2.(error := Some(FailureMessage(thrown)), appState := ErrorShown, run := NoRun);
            HandleImageSelect(app, dataUrl, mimeType, svc) == [a1, a2, a3]
  {
    var a1 := App(Analyzing, None, Some(dataUrl), None, AwaitingVision(ImagePayload(dataUrl), mimeType));
    var a2 := a1.(appState := FetchingHistory, run := AwaitingHistory(name));
    var a3 := a2.(error := Some(FailureMessage(thrown)), appState := ErrorShown, run := NoRun);
    assert Step(app, Submit(dataUrl, mimeType)) == a1;
    VisionSettles(a1, svc);
    ResumeTo(a1, svc, a2);
    HistorySettles(a2, svc);
    ResumeTo(a2, svc, a3);
    assert Resume(a3, svc) == [];
  }

  /** A run whose history call throws stops after FetchingHistory; the speech call is never made. */
  lemma HistoryFailureRun(app: App, dataUrl: string, mimeType: string, svc: Services,
                          name: string, thrown: Thrown)
    requires Inv(app) && app.appState.Idle?
    requires svc.analyzeImage(ImagePayload(dataUrl), mimeType) == Ok(name)
    requires svc.fetchHistory(name) == Err(thrown)
    ensures var trace := HandleImageSelect(app, dataUrl, mimeType, svc);
            && Stages(trace) == [Analyzing, FetchingHistory, ErrorShown]
            && CallsIssued(trace) == [AnalyzeImage(ImagePayload(dataUrl), mimeType), FetchHistory(name)]
            && trace[2].error == Some(FailureMessage(thrown))
            && (forall k :: 0 <= k < 3 ==> trace[k].landmarkInfo.None?)
  {
    HistoryFailureTrace(app, dataUrl, mimeType, svc, name, thrown);
    var trace := HandleImageSelect(app, dataUrl, mimeType, svc);
    Trace3(trace[0], trace[1], trace[2]);
  }

  /** The states of a run whose speech call throws. */
  lemma NarrationFailureTrace(app: App, dataUrl: string, mimeType: string, svc: Services,
                              name: string, data: HistoryData, thrown: Thrown)
    requires Inv(app) && app.appState.Idle?
    requires svc.analyzeImage(ImagePayload(dataUrl), mimeType) == Ok(name)
    requires svc.fetchHistory(name) == Ok(data)
    requires svc.generateNarration(data.history) == Err(thrown)
    ensures var a1 := App(Analyzing, None, Some(dataUrl), None, AwaitingVision(ImagePayload(dataUrl), mimeType));
            var a2 := a1.(appState := FetchingHistory, run := AwaitingHistory(name));
            var a3 := a2.(appState := GeneratingAudio, run := AwaitingNarration(name, data.history, data.sources));
            var a4 := a3.(error := Some(FailureMessage(thrown)), appState := ErrorShown, run := NoRun);
            HandleImageSelect(app, dataUrl, mimeType, svc) == [a1, a2, a3, a4]
  {
    var a1 := App(Analyzing, None, Some(dataUrl), None, AwaitingVision(ImagePayload(dataUrl), mimeType));
    var a2 := a1.(appState := FetchingHistory, run := AwaitingHistory(name));
    var a3 := a2.(appState := GeneratingAudio, run := AwaitingNarration(name, data.history, data.sources));
    var a4 := a3.(error := Some(FailureMessage(thrown)), appState := ErrorShown, run := NoRun);
    assert Step(app, Submit(dataUrl, mimeType)) == a1;
    VisionSettles(a1, svc);
    ResumeTo(a1, svc, a2);
    HistorySettles(a2, svc);
    ResumeTo(a2, svc, a3);
    NarrationSettles(a3, svc);
    ResumeTo(a3, svc, a4);
    assert Resume(a4, svc) == [];
  }

  /** A run whose speech call throws stops after GeneratingAudio, with no record. */
  lemma NarrationFailureRun(app: App, dataUrl: string, mimeType: string, svc: Services,
                            name: string, data: HistoryData, thrown: Thrown)
    requires Inv(app) && app.appState.Idle?
    requires svc.analyzeImage(ImagePayload(dataUrl), mimeType) == Ok(name)
    requires svc.fetchHistory(name) == Ok(data)
    requires svc.generateNarration(data.history) == Err(thrown)
    ensures var trace := HandleImageSelect(app, dataUrl, mimeType, svc);
            && Stages(trace) == [Analyzing, FetchingHistory, GeneratingAudio, ErrorShown]
            && CallsIssued(trace)
               == [AnalyzeImage(ImagePayload(dataUrl), mimeType), FetchHistory(name), GenerateNarration(data.history)]
            && trace[3].error == Some(FailureMessage(thrown))
            && (forall k :: 0 <= k < 4 ==> trace[k].landmarkInfo.None?)
  {
    NarrationFailureTrace(app, dataUrl, mimeType, svc, name, data, thrown);
    var trace := HandleImageSelect(app, dataUrl, mimeType, svc);
    Trace4(trace[0], trace[1], trace[2], trace[3]);
  }

  /** The three calls as `services/geminiService.ts` makes them, over whatever the model replies:
      the vision reply text, the history reply text and grounding chunks, and the speech reply's
      inline audio data, each as a function of the prompt's argument. */
  function GatewayServices(visionText: (Option<string>, string) -> string,
                           historyText: string -> string,
                           historyChunks: string -> Option<seq<GroundingSource>>,
                           speechData: string -> Option<string>): Services {
    Services(
      (payload, mimeType) => LandmarkNameFromReply(visionText(payload, mimeType)),
      name => HistoryFromReply(historyText(name), historyChunks(name)),
      text => NarrationFromReply(speechData(text)))
  }

  /** What the three gateway calls resolve to, reply by reply. */
  lemma GatewayCalls(visionText: (Option<string>, string) -> string,
                     historyText: string -> string,
                     historyChunks: string -> Option<seq<GroundingSource>>,
                     speechData: string -> Option<string>,
                     payload: Option<string>, mimeType: string, name: string, text: string)
    ensures var svc := GatewayServices(visionText, historyText, historyChunks, speechData);
            && svc.analyzeImage(payload, mimeType) == Ok(Trim(visionText(payload, mimeType)))
            && svc.fetchHistory(name) == Ok(HistoryData(historyText(name), historyChunks(name).GetOr([])))
            && svc.generateNarration(text) == NarrationFromReply(speechData(text))
  {
  }

  /** The last state of a gateway run whose speech reply carries audio: the result screen with the
      record of the three replies. */
  lemma GatewaySuccess(app: App, dataUrl: string, mimeType: string, svc: Services,
                       name: string, data: HistoryData, audio: string)
    requires Inv(app) && app.appState.Idle?
    requires svc.analyzeImage(ImagePayload(dataUrl), mimeType) == Ok(name)
    requires svc.fetchHistory(name) == Ok(data)
    requires svc.generateNarration(data.history) == Ok(audio)
    ensures var trace := HandleImageSelect(app, dataUrl, mimeType, svc);
            && |trace| == 4
            && (forall k :: 0 <= k < 3 ==> trace[k].appState.IsLoading())
            && trace[3].appState.ResultShown?
            && trace[3].landmarkInfo == Some(LandmarkInfo(name, data.history, data.sources, audio))
  {
    SuccessTrace(app, dataUrl, mimeType, svc, name, data, audio);
  }

  /** The last state of a gateway run whose speech call throws: the error screen without a record. */
  lemma GatewayFailure(app: App, dataUrl: string, mimeType: string, svc: Services,
                       name: string, data: HistoryData, thrown: Thrown)
    requires Inv(app) && app.appState.Idle?
    requires svc.analyzeImage(ImagePayload(dataUrl), mimeType) == Ok(name)
    requires svc.fetchHistory(name) == Ok(data)
    requires svc.generateNarration(data.history) == Err(thrown)
    ensures var trace := HandleImageSelect(app, dataUrl, mimeType, svc);
            && |trace| == 4
            && (forall k :: 0 <= k < 3 ==> trace[k].appState.IsLoading())
            && trace[3].appState.ErrorShown?
            && trace[3].error == Some(FailureMessage(thrown)) && trace[3].landmarkInfo.None?
  {
    NarrationFailureTrace(app, dataUrl, mimeType, svc, name, data, thrown);
  }

  /** With the calls of `services/geminiService.ts`, every run reaches the speech call. It ends on
      the result screen exactly when the speech reply carries non-empty audio, and then the record's
      name is the trimmed vision reply, its history and sources are the history reply's, and its
      audio is that non-empty data; otherwise it ends on the error screen with the no-audio message.
      No earlier state is the result screen. */
  lemma GatewayRun(app: App, dataUrl: string, mimeType: string,
                   visionText: (Option<string>, string) -> string,
                   historyText: string -> string,
                   historyChunks: string -> Option<seq<GroundingSource>>,
                   speechData: string -> Option<string>)
    requires Inv(app) && app.appState.Idle?
    ensures var trace := HandleImageSelect(app, dataUrl, mimeType,
                                           GatewayServices(visionText, historyText, historyChunks, speechData));
            var name := Trim(visionText(ImagePayload(dataUrl), mimeType));
            var history := historyText(name);
            var audio := speechData(history);
            && |trace| == 4
            && (forall k :: 0 <= k < 3 ==> trace[k].appState.IsLoading())
            && (trace[3].appState.ResultShown? <==> audio.Some? && audio.value != [])
            && (trace[3].appState.ResultShown? ==>
                  trace[3].landmarkInfo == Some(LandmarkInfo(name, history, historyChunks(name).GetOr([]), audio.value)))
            && (!trace[3].appState.ResultShown? ==>
                  trace[3].appState.ErrorShown? && trace[3].landmarkInfo.None?
                  && trace[3].error == Some(FailureMessage(ErrorObject(NoAudioMessage))))
  {
    var svc := GatewayServices(visionText, historyText, historyChunks, speechData);
    var name := Trim(visionText(ImagePayload(dataUrl), mimeType));
    var data := HistoryData(historyText(name), historyChunks(name).GetOr([]));
    GatewayCalls(visionText, historyText, historyChunks, speechData, ImagePayload(dataUrl), mimeType, name, data.history);
    var audio := speechData(data.history);
    if audio.Some? && audio.value != [] {
      GatewaySuccess(app, dataUrl, mimeType, svc, name, data, audio.value);
    } else {
      GatewayFailure(app, dataUrl, mimeType, svc, name, data, ErrorObject(NoAudioMessage));
    }
  }

  /** With the calls of `services/geminiService.ts`, a record on the result screen always carries
      non-empty audio and the trimmed vision reply as its name. */
  lemma GatewayRecord(app: App, dataUrl: string, mimeType: string,
                      visionText: (Option<string>, string) -> string,
                      historyText: string -> string,
                      historyChunks: string -> Option<seq<GroundingSource>>,
                      speechData: string -> Option<string>)
    requires Inv(app) && app.appState.Idle?
    ensures var trace := HandleImageSelect(app, dataUrl, mimeType,
                                           GatewayServices(visionText, historyText, historyChunks, speechData));
            forall k :: 0 <= k < |trace| && trace[k].appState.ResultShown? ==>
              && trace[k].landmarkInfo.Some?
              && trace[k].landmarkInfo.value.audioData != []
              && trace[k].landmarkInfo.value.name == Trim(visionText(ImagePayload(dataUrl), mimeType))
  {
    var trace := HandleImageSelect(app, dataUrl, mimeType,
                                   GatewayServices(visionText, historyText, historyChunks, speechData));
    GatewayRun(app, dataUrl, mimeType, visionText, historyText, historyChunks, speechData);
    ResultOnlyLast(trace, Trim(visionText(ImagePayload(dataUrl), mimeType)));
  }

  /** In a four-state run whose first three states are loading screens, only the last state can be
      the result screen, so what holds of its record holds of every result screen in the run. */
  lemma ResultOnlyLast(trace: seq<App>, name: string)
    requires |trace| == 4 && forall k :: 0 <= k < 3 ==> trace[k].appState.IsLoading()
    requires trace[3].appState.ResultShown? ==>
               && trace[3].landmarkInfo.Some?
               && trace[3].landmarkInfo.value.audioData != []
               && trace[3].landmarkInfo.value.name == name
    ensures forall k :: 0 <= k < |trace| && trace[k].appState.ResultShown? ==>
              && trace[k].landmarkInfo.Some?
              && trace[k].landmarkInfo.value.audioData != []
              && trace[k].landmarkInfo.value.name == name
  {
    forall k | 0 <= k < |trace| && trace[k].appState.ResultShown?
      ensures trace[k].landmarkInfo.Some? && trace[k].landmarkInfo.value.audioData != []
      ensures trace[k].landmarkInfo.value.name == name
    {
      assert k == 3;
    }
  }
}

=== FILE: player.dfy ===
/** The narration player of hooks/useAudioPlayer.ts: one audio context, at most one playing source
    node, and an `isPlaying` flag that only the source's `onended` handler clears. The Web Audio
    objects are abstract handles numbered from a counter, so "a new object" means "a handle never
    issued before". */
module Player {
  import opened Wrappers
  import opened Pcm

  /** An open audio context and whether it is running (a host may create it suspended). */
  datatype Context = Context(id: nat, running: bool)

  /** A started buffer source node: the buffer it plays from its start, and whether `stop()` was called. */
  datatype SourceNode = SourceNode(id: nat, buffer: AudioBuffer, stopped: bool)

  /** The hook's state: the `isPlaying` flag and the three refs, plus the handle counter and the
      contexts created and not yet closed. */
  datatype Player = Player(
    isPlaying: bool,
    context: Option<Context>,
    source: Option<SourceNode>,
    buffer: Option<AudioBuffer>,
    nextHandle: nat,
    openContexts: set<nat>)

  /** What can happen to the player. */
  datatype Event =
    | Attach(audio: Option<seq<CodeUnit>>, startsSuspended: bool)
      // the effect runs; `audio` is the decoded binary string, absent when the base64 text is null or empty
    | Release        // the effect's cleanup: unmount, or the audio text changes
    | Play
    | Pause
    | SourceEnded    // the playing source's `onended` fires, after a natural end or a `stop()`

  /** The player when the hook first mounts. */
  const Mounted: Player := Player(false, None, None, None, 0, {})

  /** The effect body: creates a context only when none is held, then decodes the audio as one
      channel at 24000 Hz; when decoding throws, the buffer ref keeps its previous value. */
  function AttachAudio(p: Player, audio: Option<seq<CodeUnit>>, startsSuspended: bool): (r: Player)
    ensures audio.None? ==> r == p
    ensures audio.Some? && p.context.Some? ==>
              r.context == p.context && r.nextHandle == p.nextHandle && r.openContexts == p.openContexts
    ensures audio.Some? && p.context.None? ==>
              && r.context == Some(Context(p.nextHandle, !startsSuspended))
              && r.nextHandle == p.nextHandle + 1
              && r.openContexts == p.openContexts + {p.nextHandle}
    ensures r.isPlaying == p.isPlaying && r.source == p.source
    ensures audio.Some? ==>
              match DecodeAudioData(ToBytes(audio.value), NarrationSampleRate, 1)
              case Success(b) => r.buffer == Some(b)
              case Failure(_) => r.buffer == p.buffer
  {
    match audio
    case None => p
    case Some(binary) =>
      var q := if p.context.Some? then p
               else p.(context := Some(Context(p.nextHandle, !startsSuspended)),
                       nextHandle := p.nextHandle + 1,
                       openContexts := p.openContexts + {p.nextHandle});
      match DecodeAudioData(ToBytes(binary), NarrationSampleRate, 1)
      case Success(b) => q.(buffer := Some(b))
      case Failure(_) => q
  }

  /** The cleanup: stops the source if one is held, closes the context and drops it.
      `isPlaying`, the source ref and the buffer ref are left as they are. */
  function ReleaseAudio(p: Player): (r: Player)
    ensures r.context.None?
    ensures p.context.Some? ==> r.openContexts == p.openContexts - {p.context.value.id}
    ensures p.context.None? ==> r.openContexts == p.openContexts
    ensures r.source.Some? <==> p.source.Some?
    ensures r.source.Some? ==> r.source.value == p.source.value.(stopped := true)
    ensures r.isPlaying == p.isPlaying && r.buffer == p.buffer && r.nextHandle == p.nextHandle
  {
    var source := if p.source.Some? then Some(p.source.value.(stopped := true)) else None;
    var open := if p.context.Some? then p.openContexts - {p.context.value.id} else p.openContexts;
    p.(source := source, context := None, openContexts := open)
  }

  /** `play`: a no-op without a buffer, without a context, or while playing; otherwise resumes the
      context and starts a new source over the whole buffer. */
  function PlayAudio(p: Player): Player {
    if p.buffer.None? || p.context.None? || p.isPlaying then p
    else
      p.(context := Some(p.context.value.(running := true)),
         source := Some(SourceNode(p.nextHandle, p.buffer.value, false)),
         nextHandle := p.nextHandle + 1,
         isPlaying := true)
  }

  /** `pause`: stops the held source, if any; the flag is left to `onended`. */
  function PauseAudio(p: Player): Player {
    if p.source.None? then p else p.(source := Some(p.source.value.(stopped := true)))
  }

  /** The `onended` handler of the source: clears the flag and the source ref. */
  function SourceEndedAudio(p: Player): Player {
    if p.source.None? then p else p.(isPlaying := false, source := None)
  }

  function Step(p: Player, e: Event): Player {
    match e
    case Attach(audio, startsSuspended) => AttachAudio(p, audio, startsSuspended)
    case Release => ReleaseAudio(p)
    case Play => PlayAudio(p)
    case Pause => PauseAudio(p)
    case SourceEnded => SourceEndedAudio(p)
  }

  /** The player after a sequence of events. */
  function Run(p: Player, es: seq<Event>): Player
    decreases |es|
  {
    if es == [] then p else Run(Step(p, es[0]), es[1..])
  }

  /** The invariant that `Mounted` satisfies, and so every reachable player: the flag is set
      exactly while a source is held, a held source has a buffer, every handle was issued by the
      counter, and the only context not yet closed is the one held. */
  ghost predicate Inv(p: Player) {
    && (p.isPlaying <==> p.source.Some?)
    && (p.source.Some? ==> p.buffer.Some? && p.source.value.id < p.nextHandle)
    && (p.context.Some? ==> p.context.value.id < p.nextHandle && p.openContexts == {p.context.value.id})
    && (p.context.None? ==> p.openContexts == {})
  }

  lemma MountedInv()
    ensures Inv(Mounted)
  {
  }

  /** Every event keeps the invariant. */
  lemma StepPreservesInv(p: Player, e: Event)
    requires Inv(p)
    ensures Inv(Step(p, e))
  {
  }

  /** Any sequence of events from mounting keeps at most one context open, the one the hook holds. */
  lemma {:induction false} RunPreservesInv(p: Player, es: seq<Event>)
    requires Inv(p)
    ensures Inv(Run(p, es))
    decreases |es|
  {
    if es != [] {
      StepPreservesInv(p, es[0]);
      RunPreservesInv(Step(p, es[0]), es[1..]);
    }
  }

  /** `play` does nothing exactly when the buffer or the context is missing or the player is playing;
      otherwise it resumes the context and starts a source never issued before, over the held buffer. */
  lemma PlayContract(p: Player)
    requires Inv(p)
    ensures PlayAudio(p) == p <==> p.buffer.None? || p.context.None? || p.isPlaying
    ensures PlayAudio(p) != p ==>
              && PlayAudio(p).isPlaying
              && PlayAudio(p).source == Some(SourceNode(p.nextHandle, p.buffer.value, false))
              && PlayAudio(p).context == Some(Context(p.context.value.id, true))
              && PlayAudio(p).buffer == p.buffer
              && PlayAudio(p).openContexts == p.openContexts
              && p.context.value.id != p.nextHandle
  {
  }

  /** Two plays in a row start one source. */
  lemma PlayTwiceIsPlayOnce(p: Player)
    ensures PlayAudio(PlayAudio(p)) == PlayAudio(p)
  {
  }

  /** `pause` without a source does nothing; with one it only stops it and never clears the flag. */
  lemma PauseContract(p: Player)
    ensures p.source.None? ==> PauseAudio(p) == p
    ensures p.source.Some? ==> PauseAudio(p) == p.(source := Some(p.source.value.(stopped := true)))
    ensures PauseAudio(p).isPlaying == p.isPlaying
  {
  }

  /** Only `onended` clears the flag or the source ref. */
  lemma OnlySourceEndedStopsPlaying(p: Player, e: Event)
    requires !e.SourceEnded?
    ensures p.isPlaying ==> Step(p, e).isPlaying
    ensures p.source.Some? ==> Step(p, e).source.Some?
  {
  }

  /** `onended` leaves the player idle and ready to play again. */
  lemma SourceEndedClears(p: Player)
    requires Inv(p) && p.source.Some?
    ensures !SourceEndedAudio(p).isPlaying && SourceEndedAudio(p).source.None?
    ensures SourceEndedAudio(p).context == p.context && SourceEndedAudio(p).buffer == p.buffer
  {
  }

  /** Pausing and then playing again restarts from the beginning: once the stopped source has ended,
      `play` starts a new source over the whole buffer. */
  lemma PauseThenPlayRestarts(p: Player)
    requires Inv(p) && p.isPlaying && p.context.Some?
    ensures var q := PlayAudio(SourceEndedAudio(PauseAudio(p)));
            && q.isPlaying
            && q.source == Some(SourceNode(p.nextHandle, p.buffer.value, false))
            && q.source.value.id != p.source.value.id
  {
  }

  /** The cleanup closes the held context, leaves none open, and silences the held source. */
  lemma ReleaseClosesEverything(p: Player)
    requires Inv(p)
    ensures ReleaseAudio(p).openContexts == {}
    ensures ReleaseAudio(p).context.None?
    ensures ReleaseAudio(p).source.Some? ==> ReleaseAudio(p).source.value.stopped
  {
  }

  /** A second cleanup in a row changes nothing. */
  lemma ReleaseIdempotent(p: Player)
    ensures ReleaseAudio(ReleaseAudio(p)) == ReleaseAudio(p)
  {
  }

  /** After the cleanup, no sequence of events without a new effect run creates a context or a
      source: every `play` is a no-op until a context is created again. */
  lemma {:induction false} NoPlaybackAfterRelease(p: Player, es: seq<Event>)
    requires forall k :: 0 <= k < |es| ==> !es[k].Attach?
    ensures Run(ReleaseAudio(p), es).context.None?
    ensures Run(ReleaseAudio(p), es).nextHandle == p.nextHandle
    ensures Run(ReleaseAudio(p), es).source.Some? ==> Run(ReleaseAudio(p), es).source.value.stopped
  {
    StaysReleased(ReleaseAudio(p), es);
  }

  /** The released condition: no context, and any held source stopped. */
  predicate Released(p: Player) {
    p.context.None? && (p.source.Some? ==> p.source.value.stopped)
  }

  lemma {:induction false} StaysReleased(p: Player, es: seq<Event>)
    requires Released(p)
    requires forall k :: 0 <= k < |es| ==> !es[k].Attach?
    ensures Released(Run(p, es)) && Run(p, es).nextHandle == p.nextHandle
    decreases |es|
  {
    if es != [] {
      assert !es[0].Attach?;
      StaysReleased(Step(p, es[0]), es[1..]);
    }
  }

  /** Attaching audio whose bytes are odd in number keeps the previous buffer. */
  lemma OddAudioKeepsBuffer(p: Player, binary: seq<CodeUnit>, startsSuspended: bool)
    requires |binary| % 2 == 1
    ensures AttachAudio(p, Some(binary), startsSuspended).buffer == p.buffer
  {
  }

  /** Attaching encoded samples yields the mono buffer of the normalised samples. */
  lemma AttachDecodesSamples(p: Player, ss: seq<Sample>, startsSuspended: bool)
    requires |ss| > 0
    ensures AttachAudio(p, Some(BinaryString(SampleBytes(ss))), startsSuspended).buffer
         == Some(AudioBuffer(NarrationSampleRate, [NormaliseAll(ss)]))
  {
    NarrationRoundTrip(ss);
  }
}

=== FILE: types.dfy ===
/** The records shared by the pipeline and its presentation layer (types.ts). */
module Types {

  /** The six screens of the application; exactly one is active at a time. */
  datatype AppState = Idle | Analyzing | FetchingHistory | GeneratingAudio | ResultShown | ErrorShown {

    /** The three states in which one external call is in flight. */
    predicate IsLoading() {
      Analyzing? || FetchingHistory? || GeneratingAudio?
    }
  }

  /** One web citation backing the generated history. */
  datatype GroundingSource = GroundingSource(uri: string, title: string)

  /** Everything shown on the result screen; built only when the whole pipeline succeeded. */
  datatype LandmarkInfo = LandmarkInfo(
    name: string,
    history: string,
    sources: seq<GroundingSource>,
    audioData: string)
}

=== FILE: wrappers.dfy ===
/** Failure-carrying datatypes shared by the other modules. */
module Wrappers {

  /** A value that may be absent: the TypeScript `T | null` (and `undefined`). */
  datatype Option<+T> = None | Some(value: T) {

    /** The value when present, `default` otherwise (the `x || default` idiom on objects). */
    function GetOr(default: T): T {
      match this
      case Some(v) => v
      case None => default
    }
  }

  /** The outcome of an operation that either produces a value or fails with an error. */
  datatype Result<+T, +E> = Success(value: T) | Failure(error: E)
}
